=== FILE: README.md ===
# Catalog pipeline of the Gibson voice-search page, in Dafny

The page loads a store's product export as CSV text. It parses the text into
rows of cells, maps every row after the header to a product record, and
filters the products with a case-insensitive substring search as the user
types or speaks. This project models those three pure steps of
`public/gipson.js` and proves what they do:

- `Csv` (csv.dfy) is `parseCSV`. It is a single left-to-right pass carrying
  the finished rows, the current row, the current cell and the in-quote flag.
  `Csv.Run` is that pass over the unread text, and `Csv.Parse` adds the final
  flush. `Csv.ParseLoop` is `parseCSV`'s index loop with its `continue`s,
  proved to compute the same rows. A two-stage reference reading first
  classifies each character (`Csv.Lex`: literal, cell end or row end). It then
  cuts the classified stream at row ends and cell ends (`Csv.Group`). The pass
  is proved equal to this reading. A quoting writer (`Csv.Format`) is proved
  to be inverted by the reader, provided no row is empty (an empty row is
  written as a bare line break, which reads back as one empty cell).
- `Catalog` (catalog.dfy) is the positional column map inside `loadCSV` and
  the `filter` function. A column that a short row lacks is `Absent`, which
  plays the part of JavaScript's `undefined`.
- `Text` (text.dfy) holds the sequence helpers both use: `Count`, `Split`,
  `Join` (Array.prototype.join), `Includes` (String.prototype.includes),
  ASCII `Lower` and `IsSubsequence`.

Behaviour of `parseCSV`, `loadCSV` and `filter` worth knowing:

- The code ends a row at every unquoted `\r` as well as every `\n`, so a CRLF
  pair adds a row holding one empty cell.
- Blank rows are not dropped, except a last line with no line break after it
  that is only `""` (a quote opening and closing an empty section) or a lone
  `"` (a quote opening a section that is never closed): the final flush finds
  neither a pending cell nor a pending row, so `a\n""` and `a\n"` both read
  as the single row `["a"]`.
- A quote character anywhere, not only at a cell's edges, switches quote mode
  and is dropped.
- There is no header-alias lookup. The columns are fixed positions 0, 1, 2, 10
  and 11.
- The search is a plain substring test. It does no scoring, ranking or paging.
- The text searched is `Object.values(p).join(" ")`, the fields in the order
  url, image, name, color, price in which the product object is built. An
  absent field contributes the empty string, as `Array.prototype.join` prints
  `undefined` as the empty string.

## Model

| member | source | states |
|---|---|---|
| Csv.Parse | public/gipson.js:15-27 | Parsing never fails. Every row it returns holds at least one cell. Empty text gives no rows. |
| Csv.RunKeepsRows | public/gipson.js:16-24 | The pass only appends to the finished rows and never changes them. Each appended row holds at least one cell. |
| Csv.ParseLoop | public/gipson.js:15-27 | The index loop, which skips one extra character after an escaped pair, returns exactly the rows of the pass. |
| Csv.ParseIsGroupOfLex | public/gipson.js:15-27 | The pass equals the reference reading. Classify each character with the quoting resolved, cut at unquoted line breaks, drop an empty last line, then cut each line at unquoted commas. |
| Csv.CellsAreUnquotedCommasPlusOne | public/gipson.js:21-25 | Each row has exactly one more cell than its line has unquoted commas. Its cells are the literal characters between those commas. |
| Csv.RowCount | public/gipson.js:22-25 | There is one row per unquoted line break, plus one more when tokens follow the last break. A final line break therefore adds no empty row. |
| Csv.QuoteFreeCounts | public/gipson.js:21-22 | In text with no quote characters, every comma ends a cell and every `\n` or `\r` ends a row. |
| Csv.QuotesComeFromPairs | public/gipson.js:19-20 | A quote becomes a literal only from a doubled pair. The classified text holds at most half as many literal quotes as the text has quote characters. |
| Csv.GroupKeepsLiterals | public/gipson.js:21-25 | Cutting the classified text into rows and cells loses no literal: for every character, the cells together hold exactly as many of it as the classified text has literals of it. |
| Csv.QuotesInCells | public/gipson.js:15-27 | A cell gets a quote character only from a doubled pair. All parsed cells together hold at most half the quote characters of the text. |
| Csv.PairStep | public/gipson.js:19 | Inside quotes, `""` appends exactly one `"` to the cell and stays in quote mode. |
| Csv.ToggleStep | public/gipson.js:20 | Any other quote flips quote mode and adds nothing to the cell. |
| Csv.QuotedPairIsOneQuote | public/gipson.js:17-19 | After any prefix that ends inside quotes, a following `""` is one literal quote and quote mode stays on. |
| Csv.LoneQuoteToggles | public/gipson.js:17-20 | After any prefix not ending in a quote, a quote that does not start an escaped pair flips quote mode and leaves the cell unchanged. |
| Csv.RunAppend | public/gipson.js:17-24 | Reading `t` and then `r` equals reading `t + r`, unless a quote ending `t` could pair with a quote starting `r` inside quotes. |
| Csv.RunFrame | public/gipson.js:16-24 | Rows finished before the pass starts are never read or changed: starting with extra finished rows in front gives the same result with those rows in front. |
| Csv.QuotesOnlyLastLineDropped | public/gipson.js:20-25 | After a line break outside quotes (or at the start of the text), a last line `""` adds no row. |
| Csv.LoneQuoteLastLineDropped | public/gipson.js:20-25 | After a line break outside quotes (or at the start of the text), a last line holding a lone `"` adds no row. |
| Csv.FinalLineBreak | public/gipson.js:22-25 | An unquoted line break at the end closes the pending row. After a row with content it adds no empty row. |
| Csv.CrLfAddsEmptyRow | public/gipson.js:22 | An unquoted CRLF anywhere in the text yields one extra row holding a single empty cell, compared with a lone `\n`; the text after it is read as if it started a fresh text. |
| Csv.QuotedRunCopies | public/gipson.js:20-23 | Inside quotes, text without quote characters is copied into the cell verbatim, commas and line breaks included. |
| Csv.UnterminatedQuoteIsFlushed | public/gipson.js:20-25 | After an unclosed quote, a non-empty rest of the text without quote characters (commas and line breaks included) ends the last cell of a last row that is flushed. |
| Csv.ParseFormat | public/gipson.js:15-27 | Reading text written as quoted, comma-separated, newline-ended rows returns those rows, whatever commas, quotes and line breaks the cells hold, provided no row is empty. |
| Text.Includes | public/gipson.js:75 | The substring test is true exactly when the needle occurs at some index of the text. |
| Catalog.ToCatalog | public/gipson.js:52-67 | The header row is dropped, giving `max(0, rows - 1)` products. Product `i` reads url, image, name, color and price from columns 0, 1, 2, 10 and 11 of row `i + 1`. A field is present exactly when the row has that column. |
| Catalog.LoadedProductsHaveUrl | public/gipson.js:51-67 | Every product loaded from parsed text has a url field, because every parsed row has a first cell. |
| Catalog.LoadWrittenCatalog | public/gipson.js:51-67 | Complete products written as CSV rows under a non-empty header load back unchanged. |
| Catalog.Filter | public/gipson.js:73-75 | The result keeps the catalog's order as a subsequence. Each matching product is kept as many times as it occurs, and no other product is kept. |
| Catalog.FieldHitMatches | public/gipson.js:74-75 | A product matches whenever the query occurs, ignoring case, in one of its field values. |
| Catalog.EmptyQueryKeepsAll | public/gipson.js:74-75 | The empty query returns the whole catalog. |
| Catalog.FilterNarrows | public/gipson.js:74-75 | Filtering by a query whose lower-case form contains another query's lower-case form makes an earlier filter by the other query redundant. |
| Catalog.FilterIdempotent | public/gipson.js:74-75 | Filtering a filtered result again with the same query changes nothing. |
| Catalog.QueryCaseIgnored | public/gipson.js:74 | Lower-casing the query first does not change the result. |

## Left out

- Fetching the CSV (`fetch`, `r.text()`, public/gipson.js:49-50) is network I/O. The model starts from the text.
- The module-level `catalog` variable (public/gipson.js:29) is mutable page state. The model passes the product sequence explicitly.
- `render` and `log` (public/gipson.js:13, 31-46) build DOM and print text.
- The input listener and mic button wiring (public/gipson.js:78-80) are browser event plumbing.
- `startRealtime` (public/gipson.js:82-104) covers microphone access, the WebRTC peer connection and the SDP exchange. These are foreign browser and network calls.
- `server/server.js` (static hosting, `/health`, the `/token` proxy) is network I/O with no catalog logic.
- Text.Lower: only ASCII letters are case-folded. JavaScript's full Unicode `toLowerCase` (including characters whose lower case is longer) is not modelled.
- Strings are sequences of Unicode scalar values, not UTF-16 code units. Text with surrogate pairs is therefore indexed differently than in the browser.

=== FILE: catalog.dfy ===
/** The product catalog: the positional column map that turns parsed CSV
    rows into products, and the free-text filter over them. */
module Catalog {
  import opened Text
  import Csv

  /** One column of a row. A row too short to have the column gives
      `Absent`, as reading past the end of an array gives `undefined`. */
  datatype Field = Absent | Present(value: string)

  datatype Product = Product(url: Field, image: Field, name: Field, color: Field, price: Field)

  const UrlColumn: nat := 0
  const ImageColumn: nat := 1
  const NameColumn: nat := 2
  const ColorColumn: nat := 10
  const PriceColumn: nat := 11

  function Column(row: seq<string>, k: nat): Field
  {
    if k < |row| then Present(row[k]) else Absent
  }

  /** `f` is what column `k` of `row` holds: present exactly when the row is
      long enough, and then equal to the cell. */
  predicate HoldsColumn(f: Field, row: seq<string>, k: nat)
  {
    && (f.Present? <==> k < |row|)
    && (f.Present? ==> f.value == row[k])
  }

  function FromRow(row: seq<string>): Product
  {
    Product(Column(row, UrlColumn), Column(row, ImageColumn), Column(row, NameColumn),
            Column(row, ColorColumn), Column(row, PriceColumn))
  }

  /** The column map of loadCSV: the header row is dropped and product `i`
      is read from row `i + 1`, columns 0, 1, 2, 10 and 11. */
  function ToCatalog(rows: seq<seq<string>>): (items: seq<Product>)
    ensures |items| == if rows == [] then 0 else |rows| - 1
    ensures forall i :: 0 <= i < |items| ==>
              && HoldsColumn(items[i].url, rows[i + 1], UrlColumn)
              && HoldsColumn(items[i].image, rows[i + 1], ImageColumn)
              && HoldsColumn(items[i].name, rows[i + 1], NameColumn)
              && HoldsColumn(items[i].color, rows[i + 1], ColorColumn)
              && HoldsColumn(items[i].price, rows[i + 1], PriceColumn)
  {
    var data := if rows == [] then [] else rows[1..];
    seq(|data|, i requires 0 <= i < |data| => FromRow(data[i]))
  }

  /** Every row the parser produces has a first cell, so every loaded
      product has a url, possibly empty. */
  lemma LoadedProductsHaveUrl(text: string)
    ensures forall p :: p in ToCatalog(Csv.Parse(text)) ==> p.url.Present?
  {
    var rows := Csv.Parse(text);
    var items := ToCatalog(rows);
    forall p | p in items
      ensures p.url.Present?
    {
      var i :| 0 <= i < |items| && items[i] == p;
      assert rows[i + 1] != [];
    }
  }

  // ---------------------------------------------------------------------
  // Writing products back as rows.

  predicate Complete(p: Product)
  {
    p.url.Present? && p.image.Present? && p.name.Present? && p.color.Present? && p.price.Present?
  }

  /** A row that puts each field in its column and leaves columns 3 to 9 blank. */
  function ToRow(p: Product): seq<string>
  {
    [Shown(p.url), Shown(p.image), Shown(p.name), "", "", "", "", "", "", "", Shown(p.color), Shown(p.price)]
  }

  function ToRows(items: seq<Product>): seq<seq<string>>
  {
    seq(|items|, i requires 0 <= i < |items| => ToRow(items[i]))
  }

  /** Complete products written as CSV under any non-empty header load back
      unchanged. An absent field would be written as an empty cell and read
      back as a present empty value. */
  lemma LoadWrittenCatalog(header: seq<string>, items: seq<Product>)
    requires header != []
    requires forall i :: 0 <= i < |items| ==> Complete(items[i])
    ensures ToCatalog(Csv.Parse(Csv.Format([header] + ToRows(items)))) == items
  {
    var rows := [header] + ToRows(items);
    Csv.ParseFormat(rows);
    var loaded := ToCatalog(rows);
    forall i | 0 <= i < |items|
      ensures loaded[i] == items[i]
    {
      assert rows[i + 1] == ToRow(items[i]);
    }
  }

  // ---------------------------------------------------------------------
  // The filter.

  /** How a field prints when the values are joined: an absent value as the
      empty string. */
  function Shown(f: Field): string
  {
    if f.Present? then f.value else ""
  }

  /** The field values in declaration order, as Object.values lists them. */
  function Values(p: Product): seq<string>
  {
    [Shown(p.url), Shown(p.image), Shown(p.name), Shown(p.color), Shown(p.price)]
  }

  /** The values joined by single spaces. */
  function Blob(p: Product): string
  {
    Join(Values(p), ' ')
  }

  /** Case-insensitive substring test of the query against the joined values. */
  predicate Matches(p: Product, q: string)
  {
    Includes(Lower(Blob(p)), Lower(q))
  }

  /** filter: the products that match, in catalog order. Each product that
      matches is kept as often as it occurs, and no other is kept. */
  function Filter(items: seq<Product>, q: string): (r: seq<Product>)
    ensures IsSubsequence(r, items)
    ensures forall p :: multiset(r)[p] == if Matches(p, q) then multiset(items)[p] else 0
    decreases |items|
  {
    if items == [] then []
    else
      var rest := Filter(items[1..], q);
      assert items == [items[0]] + items[1..];
      if Matches(items[0], q) then
        assert ([items[0]] + rest)[1..] == rest;
        [items[0]] + rest
      else
        rest
  }

  /** A product matches whenever the query occurs, ignoring case, in one of its fields. */
  lemma FieldHitMatches(p: Product, q: string, k: nat)
    requires k < |Values(p)|
    requires Includes(Lower(Values(p)[k]), Lower(q))
    ensures Matches(p, q)
  {
    var parts := Values(p);
    LowerJoin(parts, ' ');
    JoinIncludesPart(LowerAll(parts), ' ', k, Lower(q));
  }

  /** The empty query keeps the whole catalog. */
  lemma {:induction false} EmptyQueryKeepsAll(items: seq<Product>)
    ensures Filter(items, "") == items
    decreases |items|
  {
    if items != [] {
      EmptyQueryKeepsAll(items[1..]);
      assert Matches(items[0], "") by {
        assert Lower("") == "";
        assert OccursAt(Lower(Blob(items[0])), "", 0);
      }
      assert items == [items[0]] + items[1..];
    }
  }

  /** Filtering with a query whose lower-case form contains that of another
      only narrows: the second filter makes the first one redundant. */
  lemma {:induction false} FilterNarrows(items: seq<Product>, q: string, q2: string)
    requires Includes(Lower(q2), Lower(q))
    ensures Filter(Filter(items, q), q2) == Filter(items, q2)
    decreases |items|
  {
    if items != [] {
      FilterNarrows(items[1..], q, q2);
      var rest := Filter(items[1..], q);
      if Matches(items[0], q) {
        assert ([items[0]] + rest)[1..] == rest;
      } else if Matches(items[0], q2) {
        IncludesTransitive(Lower(Blob(items[0])), Lower(q2), Lower(q));
      }
    }
  }

  /** Filtering again with the same query changes nothing. */
  lemma {:induction false} FilterIdempotent(items: seq<Product>, q: string)
    ensures Filter(Filter(items, q), q) == Filter(items, q)
  {
    assert OccursAt(Lower(q), Lower(q), 0);
    FilterNarrows(items, q, q);
  }

  /** Only the lower-case form of the query matters. */
  lemma {:induction false} QueryCaseIgnored(items: seq<Product>, q: string)
    ensures Filter(items, Lower(q)) == Filter(items, q)
    decreases |items|
  {
    LowerIdempotent(q);
    if items != [] {
      QueryCaseIgnored(items[1..], q);
    }
  }
}

=== FILE: csv.dfy ===
/** The catalog's CSV reader: a single left-to-right pass that carries the
    finished rows, the row being built, the cell being built and whether the
    scan is inside a quoted section. It never fails: whatever is left at the
    end of the text is flushed as a last row.

    Besides the pass itself the module holds
    - a reference reading of the same text in two stages (classify every
      character, then cut the classified stream at row and cell ends) and the
      proof that the pass computes exactly that;
    - a quoting writer and the proof that the reader inverts it;
    - the index loop of `parseCSV`, proved equal to the pass. */
module Csv {
  import opened Text

  datatype ParseState = ParseState(rows: seq<seq<string>>, row: seq<string>, cur: string, inQuote: bool)

  const Start := ParseState([], [], "", false)

  predicate IsLineBreak(c: char)
  {
    c == '\n' || c == '\r'
  }

  /** The pass over the unread text `s`, starting from `st`, in the order of
      `parseCSV`'s tests: an escaped quote pair inside quotes, any other
      quote, an unquoted comma, an unquoted line break, anything else. */
  function Run(s: string, st: ParseState): ParseState
    decreases |s|
  {
    if s == [] then st
    else if st.inQuote && |s| >= 2 && s[0] == '"' && s[1] == '"' then
      Run(s[2..], st.(cur := st.cur + ['"']))
    else if s[0] == '"' then
      Run(s[1..], st.(inQuote := !st.inQuote))
    else if !st.inQuote && s[0] == ',' then
      Run(s[1..], st.(row := st.row + [st.cur], cur := ""))
    else if !st.inQuote && IsLineBreak(s[0]) then
      Run(s[1..], ParseState(st.rows + [st.row + [st.cur]], [], "", false))
    else
      Run(s[1..], st.(cur := st.cur + [s[0]]))
  }

  /** The pass only ever appends finished rows, and each of them holds at
      least one cell. */
  lemma {:induction false} RunKeepsRows(s: string, st: ParseState)
    ensures st.rows <= Run(s, st).rows
    ensures (forall i :: 0 <= i < |st.rows| ==> st.rows[i] != []) ==>
              forall i :: 0 <= i < |Run(s, st).rows| ==> Run(s, st).rows[i] != []
    decreases |s|
  {
    if s == [] {
    } else if st.inQuote && |s| >= 2 && s[0] == '"' && s[1] == '"' {
      RunKeepsRows(s[2..], st.(cur := st.cur + ['"']));
    } else if s[0] == '"' {
      RunKeepsRows(s[1..], st.(inQuote := !st.inQuote));
    } else if !st.inQuote && s[0] == ',' {
      RunKeepsRows(s[1..], st.(row := st.row + [st.cur], cur := ""));
    } else if !st.inQuote && IsLineBreak(s[0]) {
      RunKeepsRows(s[1..], ParseState(st.rows + [st.row + [st.cur]], [], "", false));
    } else {
      RunKeepsRows(s[1..], st.(cur := st.cur + [s[0]]));
    }
  }

  /** The end of the pass: a pending cell or a pending row becomes the last row. */
  function Flush(st: ParseState): seq<seq<string>>
  {
    if st.cur != "" || st.row != [] then st.rows + [st.row + [st.cur]] else st.rows
  }

  /** parseCSV: rows of cells. Every row holds at least one cell and the
      empty text holds no row. */
  function Parse(text: string): (rows: seq<seq<string>>)
    ensures forall i :: 0 <= i < |rows| ==> rows[i] != []
    ensures text == [] ==> rows == []
  {
    RunKeepsRows(text, Start);
    Flush(Run(text, Start))
  }

  // ---------------------------------------------------------------------
  // Reference reading: classify, then cut.

  /** What a character of the text turns into once the quoting is resolved. */
  datatype Token = Lit(c: char) | CellEnd | RowEnd

  /** Classification of `s` read in quote mode `inQuote`: an escaped pair
      inside quotes is one literal quote, any other quote is dropped and flips
      the mode, an unquoted comma ends a cell, an unquoted `\n` or `\r` ends a
      row, and every other character is a literal. */
  function Lex(s: string, inQuote: bool): seq<Token>
    decreases |s|
  {
    if s == [] then []
    else if inQuote && |s| >= 2 && s[0] == '"' && s[1] == '"' then [Lit('"')] + Lex(s[2..], inQuote)
    else if s[0] == '"' then Lex(s[1..], !inQuote)
    else if !inQuote && s[0] == ',' then [CellEnd] + Lex(s[1..], inQuote)
    else if !inQuote && IsLineBreak(s[0]) then [RowEnd] + Lex(s[1..], false)
    else [Lit(s[0])] + Lex(s[1..], inQuote)
  }

  /** The characters carried by literal tokens. */
  function Chars(toks: seq<Token>): string
    decreases |toks|
  {
    if toks == [] then ""
    else (if toks[0].Lit? then [toks[0].c] else "") + Chars(toks[1..])
  }

  function CellsOf(parts: seq<seq<Token>>): (cells: seq<string>)
    ensures |cells| == |parts|
    ensures forall i :: 0 <= i < |parts| ==> cells[i] == Chars(parts[i])
  {
    seq(|parts|, i requires 0 <= i < |parts| => Chars(parts[i]))
  }

  /** The cells of one line: its tokens cut at every cell end. */
  function Cells(line: seq<Token>): seq<string>
  {
    CellsOf(Split(line, CellEnd))
  }

  function RowsOf(lines: seq<seq<Token>>): (rows: seq<seq<string>>)
    ensures |rows| == |lines|
    ensures forall i :: 0 <= i < |lines| ==> rows[i] == Cells(lines[i])
    decreases |lines|
  {
    if lines == [] then [] else [Cells(lines[0])] + RowsOf(lines[1..])
  }

  /** The lines of a token stream: cut at every row end, without the empty
      line that follows a final row end (or that is all of an empty stream). */
  function Lines(toks: seq<Token>): seq<seq<Token>>
  {
    DropEmptyLast(Split(toks, RowEnd))
  }

  /** The parts without the last one when that one is empty. */
  function DropEmptyLast(parts: seq<seq<Token>>): seq<seq<Token>>
    requires parts != []
  {
    if parts[|parts| - 1] == [] then parts[..|parts| - 1] else parts
  }

  function Group(toks: seq<Token>): seq<seq<string>>
  {
    RowsOf(Lines(toks))
  }

  /** The tokens a partly read row stands for: its finished cells, each
      followed by a cell end, then the pending cell. */
  function Unlex(row: seq<string>, cur: string): seq<Token>
  {
    Join(LitsAll(row + [cur]), CellEnd)
  }

  function Lits(s: string): seq<Token>
  {
    seq(|s|, i requires 0 <= i < |s| => Lit(s[i]))
  }

  function LitsAll(cells: seq<string>): seq<seq<Token>>
  {
    seq(|cells|, i requires 0 <= i < |cells| => Lits(cells[i]))
  }

  lemma {:induction false} CharsLits(s: string)
    ensures Chars(Lits(s)) == s
    decreases |s|
  {
    if s != [] {
      assert Lits(s)[1..] == Lits(s[1..]);
      CharsLits(s[1..]);
    }
  }

  lemma UnlexLit(row: seq<string>, cur: string, c: char)
    ensures Unlex(row, cur + [c]) == Unlex(row, cur) + [Lit(c)]
  {
    assert Lits(cur + [c]) == Lits(cur) + [Lit(c)];
    assert LitsAll(row + [cur + [c]]) == LitsAll(row) + [Lits(cur) + [Lit(c)]];
    assert LitsAll(row + [cur]) == LitsAll(row) + [Lits(cur)];
    JoinSnoc(LitsAll(row), Lits(cur) + [Lit(c)], CellEnd);
    JoinSnoc(LitsAll(row), Lits(cur), CellEnd);
  }

  lemma UnlexCellEnd(row: seq<string>, cur: string)
    ensures Unlex(row + [cur], "") == Unlex(row, cur) + [CellEnd]
  {
    assert LitsAll(row + [cur] + [""]) == LitsAll(row + [cur]) + [[]];
    JoinSnoc(LitsAll(row + [cur]), [], CellEnd);
  }

  lemma UnlexCells(row: seq<string>, cur: string)
    ensures Cells(Unlex(row, cur)) == row + [cur]
    ensures RowEnd !in Unlex(row, cur)
    ensures Unlex(row, cur) == [] <==> row == [] && cur == ""
  {
    var parts := LitsAll(row + [cur]);
    SplitJoin(parts, CellEnd);
    forall i | 0 <= i < |parts|
      ensures Chars(parts[i]) == (row + [cur])[i]
    {
      CharsLits((row + [cur])[i]);
    }
    JoinAvoids(parts, CellEnd, RowEnd);
    if row != [] {
      assert Unlex(row, cur) == parts[0] + [CellEnd] + Join(parts[1..], CellEnd);
    }
  }

  /** A line with no row end is one row, unless it is empty. */
  lemma GroupLine(line: seq<Token>)
    requires RowEnd !in line
    ensures Group(line) == if line == [] then [] else [Cells(line)]
  {
    SplitNone(line, RowEnd);
  }

  /** A line closed by a row end is the first line. */
  lemma LinesCons(line: seq<Token>, rest: seq<Token>)
    requires RowEnd !in line
    ensures Lines(line + [RowEnd] + rest) == [line] + Lines(rest)
  {
    SplitPrefix(line, RowEnd, rest);
    DropEmptyLastCons(line, Split(rest, RowEnd));
  }

  /** Dropping an empty last part does not touch the first part. */
  lemma DropEmptyLastCons(first: seq<Token>, parts: seq<seq<Token>>)
    requires parts != []
    ensures DropEmptyLast([first] + parts) == [first] + DropEmptyLast(parts)
  {
    var all := [first] + parts;
    assert all[|all| - 1] == parts[|parts| - 1];
    if parts[|parts| - 1] == [] {
      assert all[..|all| - 1] == [first] + parts[..|parts| - 1];
    }
  }

  /** A line closed by a row end is the first row. */
  lemma GroupCons(line: seq<Token>, rest: seq<Token>)
    requires RowEnd !in line
    ensures Group(line + [RowEnd] + rest) == [Cells(line)] + Group(rest)
  {
    LinesCons(line, rest);
    RowsOfCons(line, Lines(rest));
  }

  /** The rows of a first line followed by more lines. */
  lemma RowsOfCons(line: seq<Token>, lines: seq<seq<Token>>)
    ensures RowsOf([line] + lines) == [Cells(line)] + RowsOf(lines)
  {
    assert ([line] + lines)[1..] == lines;
  }

  /** The pass from `st` over `s` yields the reference reading of what `st`
      stands for followed by the classified rest of the text. */
  ghost predicate ReadsAsGroup(s: string, st: ParseState)
  {
    Flush(Run(s, st)) == st.rows + Group(Unlex(st.row, st.cur) + Lex(s, st.inQuote))
  }

  /** At the end of the text the flush is the reading of the pending row. */
  lemma ReadsAsGroupAtEnd(st: ParseState)
    ensures ReadsAsGroup([], st)
  {
    var pending := Unlex(st.row, st.cur);
    UnlexCells(st.row, st.cur);
    assert pending + Lex([], st.inQuote) == pending;
    GroupLine(pending);
  }

  /** Equal token streams group alike. This states nothing new: it is a
      performance device that spares the callers from unfolding Group. */
  lemma GroupCongruent(a: seq<Token>, b: seq<Token>)
    requires a == b
    ensures Group(a) == Group(b)
  {
  }

  /** Appending a literal to the pending cell moves it from the text to the state. */
  lemma PendingLit(row: seq<string>, cur: string, c: char, rest: seq<Token>)
    ensures Group(Unlex(row, cur) + ([Lit(c)] + rest)) == Group(Unlex(row, cur + [c]) + rest)
  {
    UnlexLit(row, cur, c);
    GroupCongruent(Unlex(row, cur) + ([Lit(c)] + rest), Unlex(row, cur + [c]) + rest);
  }

  /** Ending a cell moves the cell end from the text to the state. */
  lemma PendingCellEnd(row: seq<string>, cur: string, rest: seq<Token>)
    ensures Group(Unlex(row, cur) + ([CellEnd] + rest)) == Group(Unlex(row + [cur], "") + rest)
  {
    UnlexCellEnd(row, cur);
    GroupCongruent(Unlex(row, cur) + ([CellEnd] + rest), Unlex(row + [cur], "") + rest);
  }

  /** Ending a row turns the pending row into a finished one. */
  lemma PendingRowEnd(row: seq<string>, cur: string, rest: seq<Token>)
    ensures Group(Unlex(row, cur) + ([RowEnd] + rest)) == [row + [cur]] + Group(Unlex([], "") + rest)
  {
    var pending := Unlex(row, cur);
    UnlexCells(row, cur);
    UnlexCells([], "");
    GroupCongruent(Unlex([], "") + rest, rest);
    GroupCongruent(pending + ([RowEnd] + rest), pending + [RowEnd] + rest);
    GroupCons(pending, rest);
  }

  /** One step of the pass that appends literal `c` and leaves `rest` unread. */
  lemma {:induction false} StepLit(s: string, rest: string, st: ParseState, c: char)
    requires Run(s, st) == Run(rest, st.(cur := st.cur + [c]))
    requires Lex(s, st.inQuote) == [Lit(c)] + Lex(rest, st.inQuote)
    requires ReadsAsGroup(rest, st.(cur := st.cur + [c]))
    ensures ReadsAsGroup(s, st)
  {
    PendingLit(st.row, st.cur, c, Lex(rest, st.inQuote));
  }

  /** One step of the pass over an unquoted comma. */
  lemma StepCellEnd(s: string, st: ParseState)
    requires s != [] && !st.inQuote && s[0] == ','
    requires ReadsAsGroup(s[1..], st.(row := st.row + [st.cur], cur := ""))
    ensures ReadsAsGroup(s, st)
  {
    assert Run(s, st) == Run(s[1..], st.(row := st.row + [st.cur], cur := ""));
    assert Lex(s, false) == [CellEnd] + Lex(s[1..], false);
    PendingCellEnd(st.row, st.cur, Lex(s[1..], false));
  }

  lemma StepRowEnd(s: string, rest: string, st: ParseState)
    requires Run(s, st) == Run(rest, ParseState(st.rows + [st.row + [st.cur]], [], "", false))
    requires Lex(s, st.inQuote) == [RowEnd] + Lex(rest, false)
    requires ReadsAsGroup(rest, ParseState(st.rows + [st.row + [st.cur]], [], "", false))
    ensures ReadsAsGroup(s, st)
  {
    PendingRowEnd(st.row, st.cur, Lex(rest, false));
  }

  /** The pass from any state agrees with the reference reading. */
  lemma {:induction false} RunGroups(s: string, st: ParseState)
    ensures ReadsAsGroup(s, st)
    decreases |s|
  {
    var q := st.inQuote;
    if s == [] {
      ReadsAsGroupAtEnd(st);
    } else if q && |s| >= 2 && s[0] == '"' && s[1] == '"' {
      RunGroups(s[2..], st.(cur := st.cur + ['"']));
      StepLit(s, s[2..], st, '"');
    } else if s[0] == '"' {
      RunGroups(s[1..], st.(inQuote := !q));
    } else if !q && s[0] == ',' {
      RunGroups(s[1..], st.(row := st.row + [st.cur], cur := ""));
      StepCellEnd(s, st);
    } else if !q && IsLineBreak(s[0]) {
      RunGroups(s[1..], ParseState(st.rows + [st.row + [st.cur]], [], "", false));
      StepRowEnd(s, s[1..], st);
    } else {
      RunGroups(s[1..], st.(cur := st.cur + [s[0]]));
      StepLit(s, s[1..], st, s[0]);
    }
  }

  /** The pass computes the reference reading. */
  lemma ParseIsGroupOfLex(text: string)
    ensures Parse(text) == Group(Lex(text, false))
  {
    RunGroups(text, Start);
    UnlexCells([], "");
    assert Unlex([], "") + Lex(text, false) == Lex(text, false);
  }

  /** Every row has exactly one more cell than its line has unquoted commas,
      and its cells are the literal characters between them. */
  lemma CellsAreUnquotedCommasPlusOne(text: string)
    ensures var rows := Parse(text);
            var lines := Lines(Lex(text, false));
            && |rows| == |lines|
            && forall i :: 0 <= i < |rows| ==>
                 && |rows[i]| == Count(lines[i], CellEnd) + 1
                 && forall j :: 0 <= j < |rows[i]| ==> rows[i][j] == Chars(Split(lines[i], CellEnd)[j])
  {
    ParseIsGroupOfLex(text);
  }

  /** There is one row per unquoted line break, plus one more when text
      follows the last of them. */
  lemma RowCount(text: string)
    ensures var toks := Lex(text, false);
            |Parse(text)| == Count(toks, RowEnd) + (if toks == [] || toks[|toks| - 1] == RowEnd then 0 else 1)
  {
    ParseIsGroupOfLex(text);
    SplitLastEmpty(Lex(text, false), RowEnd);
  }

  /** In text without quote characters every comma ends a cell and every
      `\n` and `\r` ends a row. */
  lemma {:induction false} QuoteFreeCounts(s: string)
    requires '"' !in s
    ensures Count(Lex(s, false), CellEnd) == Count(s, ',')
    ensures Count(Lex(s, false), RowEnd) == Count(s, '\n') + Count(s, '\r')
    decreases |s|
  {
    if s != [] {
      QuoteFreeCounts(s[1..]);
      var t := Lex(s[1..], false);
      if s[0] == ',' {
        assert Lex(s, false) == [CellEnd] + t;
      } else if IsLineBreak(s[0]) {
        assert Lex(s, false) == [RowEnd] + t;
      } else {
        assert Lex(s, false) == [Lit(s[0])] + t;
      }
    }
  }

  /** A quote becomes a literal only from a doubled pair: the classified text
      holds at most half as many literal quotes as the text has quote characters. */
  lemma {:induction false} QuotesComeFromPairs(s: string, inQuote: bool)
    ensures 2 * Count(Lex(s, inQuote), Lit('"')) <= Count(s, '"')
    decreases |s|
  {
    if s == [] {
    } else if inQuote && |s| >= 2 && s[0] == '"' && s[1] == '"' {
      QuotesComeFromPairs(s[2..], inQuote);
      assert s[1..][1..] == s[2..];
      assert Count(s, '"') == 2 + Count(s[2..], '"');
    } else if s[0] == '"' {
      QuotesComeFromPairs(s[1..], !inQuote);
    } else {
      QuotesComeFromPairs(s[1..], if !inQuote && IsLineBreak(s[0]) then false else inQuote);
    }
  }

  /** Occurrences of character `c` over all cells of all rows. */
  function CharsIn(rows: seq<seq<string>>, c: char): nat
    decreases |rows|
  {
    if rows == [] then 0 else CountAll(rows[0], c) + CharsIn(rows[1..], c)
  }

  /** The occurrences of `c` in a cell are its literal `c` tokens. */
  lemma {:induction false} CharsKeepsCount(toks: seq<Token>, c: char)
    ensures Count(Chars(toks), c) == Count(toks, Lit(c))
    decreases |toks|
  {
    if toks != [] {
      CharsKeepsCount(toks[1..], c);
      CountConcat(if toks[0].Lit? then [toks[0].c] else "", Chars(toks[1..]), c);
    }
  }

  lemma {:induction false} CellsOfKeepsCount(parts: seq<seq<Token>>, c: char)
    ensures CountAll(CellsOf(parts), c) == CountAll(parts, Lit(c))
    decreases |parts|
  {
    if parts != [] {
      CellsOfKeepsCount(parts[1..], c);
      CharsKeepsCount(parts[0], c);
      assert CellsOf(parts)[1..] == CellsOf(parts[1..]);
    }
  }

  lemma {:induction false} RowsOfKeepsCount(lines: seq<seq<Token>>, c: char)
    ensures CharsIn(RowsOf(lines), c) == CountAll(lines, Lit(c))
    decreases |lines|
  {
    if lines != [] {
      RowsOfKeepsCount(lines[1..], c);
      CellsOfKeepsCount(Split(lines[0], CellEnd), c);
      SplitKeepsCount(lines[0], CellEnd, Lit(c));
      var rows := RowsOf(lines);
      assert rows[1..] == RowsOf(lines[1..]);
    }
  }

  /** Dropping an empty last part loses nothing that is counted. */
  lemma DropEmptyLastKeepsCount(parts: seq<seq<Token>>, e: Token)
    requires parts != []
    ensures CountAll(DropEmptyLast(parts), e) == CountAll(parts, e)
  {
    if parts[|parts| - 1] == [] {
      var front := parts[..|parts| - 1];
      assert parts == front + [[]];
      CountAllConcat(front, [[]], e);
      assert CountAll([[]], e) == Count([], e) + CountAll([[]][1..], e);
    }
  }

  /** Cutting the classified text into rows and cells loses no literal: for
      every character, the cells together hold exactly its literal tokens. */
  lemma GroupKeepsLiterals(toks: seq<Token>, c: char)
    ensures CharsIn(Group(toks), c) == Count(toks, Lit(c))
  {
    SplitKeepsCount(toks, RowEnd, Lit(c));
    DropEmptyLastKeepsCount(Split(toks, RowEnd), Lit(c));
    RowsOfKeepsCount(Lines(toks), c);
  }

  /** A quote character reaches the parsed cells only from a doubled pair:
      all cells together hold at most half the quote characters of the text. */
  lemma QuotesInCells(text: string)
    ensures 2 * CharsIn(Parse(text), '"') <= Count(text, '"')
  {
    ParseIsGroupOfLex(text);
    GroupKeepsLiterals(Lex(text, false), '"');
    QuotesComeFromPairs(text, false);
  }

  // ---------------------------------------------------------------------
  // Facts about the pass itself.

  /** Cutting the text between `t` and `r` does not change how it is read:
      no quote ending `t` could pair with a quote starting `r`. */
  predicate SeamSafe(t: string, r: string, st: ParseState)
  {
    || r == [] || r[0] != '"'
    || t == [] || t[|t| - 1] != '"'
    || Run(t, st).inQuote
  }

  /** Reading `t` and then `r` is reading `t + r` when the seam is safe. */
  lemma {:induction false} RunAppend(t: string, r: string, st: ParseState)
    requires SeamSafe(t, r, st)
    ensures Run(t + r, st) == Run(r, Run(t, st))
    decreases |t|
  {
    if t == [] {
      assert t + r == r;
    } else {
      var s := t + r;
      assert s[0] == t[0];
      assert s[1..] == t[1..] + r;
      if |t| > 1 {
        assert t[1..][|t| - 2] == t[|t| - 1];
      }
      if st.inQuote && |t| >= 2 && t[0] == '"' && t[1] == '"' {
        assert s[2..] == t[2..] + r;
        if |t| > 2 {
          assert t[2..][|t| - 3] == t[|t| - 1];
        }
        RunAppend(t[2..], r, st.(cur := st.cur + ['"']));
      } else if t[0] == '"' {
        RunAppend(t[1..], r, st.(inQuote := !st.inQuote));
      } else if !st.inQuote && t[0] == ',' {
        RunAppend(t[1..], r, st.(row := st.row + [st.cur], cur := ""));
      } else if !st.inQuote && IsLineBreak(t[0]) {
        RunAppend(t[1..], r, ParseState(st.rows + [st.row + [st.cur]], [], "", false));
      } else {
        RunAppend(t[1..], r, st.(cur := st.cur + [t[0]]));
      }
    }
  }

  /** Inside quotes a doubled quote puts one quote character in the cell and
      stays inside quotes. */
  lemma PairStep(rest: string, st: ParseState)
    requires st.inQuote
    ensures Run("\"\"" + rest, st) == Run(rest, st.(cur := st.cur + "\""))
  {
    var r := "\"\"" + rest;
    assert r[0] == '"' && r[1] == '"' && r[2..] == rest;
  }

  /** Any other quote character is dropped and flips the quote mode: the
      cell is unchanged. */
  lemma ToggleStep(rest: string, st: ParseState)
    requires !(st.inQuote && rest != [] && rest[0] == '"')
    ensures Run("\"" + rest, st) == Run(rest, st.(inQuote := !st.inQuote))
  {
    var r := "\"" + rest;
    assert r[0] == '"' && r[1..] == rest;
    assert |r| >= 2 ==> r[1] == rest[0];
  }

  /** The same two facts in the middle of a text: a doubled quote read
      inside quotes is one quote character. */
  lemma QuotedPairIsOneQuote(t: string, rest: string, st0: ParseState)
    requires Run(t, st0).inQuote
    ensures Run(t + "\"\"" + rest, st0) == Run(rest, Run(t, st0).(cur := Run(t, st0).cur + "\""))
  {
    var r := "\"\"" + rest;
    assert t + "\"\"" + rest == t + r;
    RunAppend(t, r, st0);
    PairStep(rest, Run(t, st0));
  }

  /** A quote that does not follow a quote and is not the first of a pair
      inside quotes flips the quote mode and adds nothing to the cell. */
  lemma LoneQuoteToggles(t: string, rest: string, st0: ParseState)
    requires t == [] || t[|t| - 1] != '"'
    requires !(Run(t, st0).inQuote && rest != [] && rest[0] == '"')
    ensures Run(t + "\"" + rest, st0) == Run(rest, Run(t, st0).(inQuote := !Run(t, st0).inQuote))
  {
    var r := "\"" + rest;
    assert t + "\"" + rest == t + r;
    RunAppend(t, r, st0);
    ToggleStep(rest, Run(t, st0));
  }

  /** A final unquoted line break closes the pending row; it adds no empty
      row after a row that already has content. */
  lemma FinalLineBreak(t: string)
    requires !Run(t, Start).inQuote
    ensures var st := Run(t, Start);
            && Parse(t + "\n") == st.rows + [st.row + [st.cur]]
            && (st.row != [] || st.cur != "" ==> Parse(t + "\n") == Parse(t))
  {
    RunAppend(t, "\n", Start);
  }

  /** Rows finished before the pass starts are carried through untouched:
      the pass never looks at them. */
  lemma {:induction false} RunFrame(s: string, st: ParseState, pre: seq<seq<string>>)
    ensures Run(s, st.(rows := pre + st.rows)) == Run(s, st).(rows := pre + Run(s, st).rows)
    decreases |s|
  {
    var st' := st.(rows := pre + st.rows);
    if s == [] {
    } else if st.inQuote && |s| >= 2 && s[0] == '"' && s[1] == '"' {
      RunFrame(s[2..], st.(cur := st.cur + ['"']), pre);
      assert st'.(cur := st'.cur + ['"']) == st.(cur := st.cur + ['"']).(rows := pre + st.rows);
    } else if s[0] == '"' {
      RunFrame(s[1..], st.(inQuote := !st.inQuote), pre);
      assert st'.(inQuote := !st'.inQuote) == st.(inQuote := !st.inQuote).(rows := pre + st.rows);
    } else if !st.inQuote && s[0] == ',' {
      RunFrame(s[1..], st.(row := st.row + [st.cur], cur := ""), pre);
      assert st'.(row := st'.row + [st'.cur], cur := "") == st.(row := st.row + [st.cur], cur := "").(rows := pre + st.rows);
    } else if !st.inQuote && IsLineBreak(s[0]) {
      var next := ParseState(st.rows + [st.row + [st.cur]], [], "", false);
      RunFrame(s[1..], next, pre);
      assert pre + st.rows + [st.row + [st.cur]] == pre + next.rows;
    } else {
      RunFrame(s[1..], st.(cur := st.cur + [s[0]]), pre);
      assert st'.(cur := st'.cur + [s[0]]) == st.(cur := st.cur + [s[0]]).(rows := pre + st.rows);
    }
  }

  /** An unquoted CRLF is two row ends: wherever it stands, it yields one
      extra row holding a single empty cell, compared with a lone `\n`. */
  lemma CrLfAddsEmptyRow(t: string, r: string)
    requires !Run(t, Start).inQuote
    ensures Parse(t + "\r\n" + r) == Parse(t + "\n") + [[""]] + Parse(r)
  {
    var st := Run(t, Start);
    RunAppend(t, "\r\n", Start);
    RunAppend(t, "\n", Start);
    var closed := ParseState(st.rows + [st.row + [st.cur]], [], "", false);
    assert "\r\n"[1..] == "\n";
    assert Run("\r\n", st) == Run("\n", closed);
    assert Run("\n", st) == closed;
    assert "\n"[1..] == "";
    var empty: seq<string> := [];
    assert empty + [""] == [""];
    var pre := closed.rows + [[""]];
    var last := ParseState(pre, [], "", false);
    assert Run("\n", closed) == last;
    assert Parse(t + "\n") == Flush(closed) == closed.rows;
    var crlf := t + "\r\n";
    assert crlf[|crlf| - 1] == '\n';
    RunAppend(crlf, r, Start);
    assert last == Start.(rows := pre + Start.rows);
    RunFrame(r, Start, pre);
    var tail := Run(r, Start);
    assert Flush(tail.(rows := pre + tail.rows)) == pre + Flush(tail);
  }

  /** A last line made only of a quote opening and closing an empty section
      adds no row: the flush finds neither a pending cell nor a pending row. */
  lemma QuotesOnlyLastLineDropped(t: string)
    requires t == [] || t[|t| - 1] == '\n'
    requires !Run(t, Start).inQuote
    ensures Parse(t + "\"\"") == Parse(t)
  {
    var st := Run(t, Start);
    if t != [] {
      var front := t[..|t| - 1];
      assert front + "\n" == t;
      RunAppend(front, "\n", Start);
      assert "\n"[1..] == "";
    }
    assert st.row == [] && st.cur == "";
    RunAppend(t, "\"\"", Start);
    assert "\"\""[1..] == "\"";
    assert "\""[1..] == "";
    assert Run("\"\"", st) == st;
  }

  /** A last line made only of a lone quote adds no row either: the quote
      opens a section that is never closed and holds nothing. */
  lemma LoneQuoteLastLineDropped(t: string)
    requires t == [] || t[|t| - 1] == '\n'
    requires !Run(t, Start).inQuote
    ensures Parse(t + "\"") == Parse(t)
  {
    var st := Run(t, Start);
    if t != [] {
      var front := t[..|t| - 1];
      assert front + "\n" == t;
      RunAppend(front, "\n", Start);
      assert "\n"[1..] == "";
    }
    assert st.row == [] && st.cur == "";
    RunAppend(t, "\"", Start);
    assert "\""[1..] == "";
    assert Run("\"", st) == st.(inQuote := true);
  }

  /** Inside quotes, text without quote characters is copied verbatim, commas
      and line breaks included. */
  lemma {:induction false} QuotedRunCopies(s: string, st: ParseState)
    requires st.inQuote
    requires '"' !in s
    ensures Run(s, st) == st.(cur := st.cur + s)
    decreases |s|
  {
    if s == [] {
      assert st.cur + s == st.cur;
    } else {
      QuotedRunCopies(s[1..], st.(cur := st.cur + [s[0]]));
      assert st.cur + [s[0]] + s[1..] == st.cur + s;
    }
  }

  /** A quote that is never closed does not lose the text after it: a
      non-empty rest without quote characters, commas and line breaks
      included, ends the last cell of the last row. */
  lemma UnterminatedQuoteIsFlushed(s: string, st: ParseState)
    requires !st.inQuote
    requires s != "" && '"' !in s
    ensures Flush(Run("\"" + s, st)) == st.rows + [st.row + [st.cur + s]]
  {
    assert ("\"" + s)[0] == '"';
    assert ("\"" + s)[1..] == s;
    QuotedRunCopies(s, st.(inQuote := true));
  }

  // ---------------------------------------------------------------------
  // A writer the reader inverts.

  /** Every quote character doubled. */
  function Escape(s: string): string
    decreases |s|
  {
    if s == [] then ""
    else (if s[0] == '"' then "\"\"" else [s[0]]) + Escape(s[1..])
  }

  /** A cell wrapped in quotes, inner quotes doubled. */
  function Quote(cell: string): string
  {
    "\"" + Escape(cell) + "\""
  }

  function QuoteAll(cells: seq<string>): seq<string>
  {
    seq(|cells|, i requires 0 <= i < |cells| => Quote(cells[i]))
  }

  function FormatRow(cells: seq<string>): string
  {
    Join(QuoteAll(cells), ',') + "\n"
  }

  /** Rows written as quoted cells, comma-separated, one line each. */
  function Format(rows: seq<seq<string>>): string
    decreases |rows|
  {
    if rows == [] then "" else FormatRow(rows[0]) + Format(rows[1..])
  }

  lemma {:induction false} EscapeRun(s: string, r: string, st: ParseState)
    requires st.inQuote
    requires r == [] || r[0] != '"'
    ensures Run(Escape(s) + "\"" + r, st) == Run(r, st.(cur := st.cur + s, inQuote := false))
    decreases |s|
  {
    var input := Escape(s) + "\"" + r;
    if s == [] {
      assert input == "\"" + r;
      assert input[1..] == r;
      assert st.cur + s == st.cur;
    } else if s[0] == '"' {
      assert input == "\"\"" + (Escape(s[1..]) + "\"" + r);
      assert input[2..] == Escape(s[1..]) + "\"" + r;
      EscapeRun(s[1..], r, st.(cur := st.cur + ['"']));
      assert st.cur + ['"'] + s[1..] == st.cur + s;
    } else {
      assert input == [s[0]] + (Escape(s[1..]) + "\"" + r);
      assert input[1..] == Escape(s[1..]) + "\"" + r;
      EscapeRun(s[1..], r, st.(cur := st.cur + [s[0]]));
      assert st.cur + [s[0]] + s[1..] == st.cur + s;
    }
  }

  lemma {:induction false} QuoteRun(cell: string, r: string, st: ParseState)
    requires !st.inQuote
    requires r == [] || r[0] != '"'
    ensures Run(Quote(cell) + r, st) == Run(r, st.(cur := st.cur + cell))
  {
    var inner := Escape(cell) + "\"" + r;
    assert Quote(cell) + r == "\"" + inner;
    ToggleStep(inner, st);
    EscapeRun(cell, r, st.(inQuote := true));
  }

  lemma {:induction false} RowRun(cells: seq<string>, r: string, st: ParseState)
    requires cells != []
    requires !st.inQuote && st.cur == ""
    ensures Run(Join(QuoteAll(cells), ',') + "\n" + r, st)
         == Run(r, ParseState(st.rows + [st.row + cells], [], "", false))
    decreases |cells|
  {
    var quoted := QuoteAll(cells);
    if |cells| == 1 {
      assert Join(quoted, ',') + "\n" + r == Quote(cells[0]) + ("\n" + r);
      QuoteRun(cells[0], "\n" + r, st);
      assert ("\n" + r)[0] == '\n';
      assert ("\n" + r)[1..] == r;
      assert st.cur + cells[0] == cells[0];
      assert cells == [cells[0]];
    } else {
      assert quoted[1..] == QuoteAll(cells[1..]);
      var tail := Join(QuoteAll(cells[1..]), ',') + "\n" + r;
      assert Join(quoted, ',') + "\n" + r == Quote(cells[0]) + ("," + tail);
      QuoteRun(cells[0], "," + tail, st);
      assert ("," + tail)[1..] == tail;
      assert st.cur + cells[0] == cells[0];
      RowRun(cells[1..], r, ParseState(st.rows, st.row + [cells[0]], "", false));
      assert st.row + [cells[0]] + cells[1..] == st.row + cells;
    }
  }

  lemma {:induction false} FormatRun(rows: seq<seq<string>>, done: seq<seq<string>>)
    requires forall i :: 0 <= i < |rows| ==> rows[i] != []
    ensures Run(Format(rows), ParseState(done, [], "", false)) == ParseState(done + rows, [], "", false)
    decreases |rows|
  {
    if rows == [] {
      assert done + rows == done;
    } else {
      assert Format(rows) == Join(QuoteAll(rows[0]), ',') + "\n" + Format(rows[1..]);
      RowRun(rows[0], Format(rows[1..]), ParseState(done, [], "", false));
      assert [] + rows[0] == rows[0];
      FormatRun(rows[1..], done + [rows[0]]);
      assert done + [rows[0]] + rows[1..] == done + rows;
    }
  }

  /** Reading what the quoting writer wrote gives back the rows, whatever
      commas, quotes and line breaks the cells hold, provided no row is empty. */
  lemma {:induction false} ParseFormat(rows: seq<seq<string>>)
    requires forall i :: 0 <= i < |rows| ==> rows[i] != []
    ensures Parse(Format(rows)) == rows
  {
    FormatRun(rows, []);
  }

  // ---------------------------------------------------------------------
  // The index loop of parseCSV.

  /** parseCSV as written: an index loop with `continue`s that skips one
      extra character after an escaped pair. */
  method ParseLoop(text: string) returns (rows: seq<seq<string>>)
    ensures rows == Parse(text)
  {
    rows := [];
    var row: seq<string> := [];
    var cur := "";
    var q := false;
    var i := 0;
    while i < |text|
      invariant 0 <= i <= |text|
      invariant Flush(Run(text[i..], ParseState(rows, row, cur, q))) == Parse(text)
      decreases |text| - i
    {
      var c := text[i];
      assert text[i..][0] == c;
      assert text[i..][1..] == text[i + 1..];
      if c == '"' && q && i + 1 < |text| && text[i + 1] == '"' {
        assert text[i..][2..] == text[i + 2..];
        cur := cur + ['"'];
        i := i + 2;
      } else if c == '"' {
        q := !q;
        i := i + 1;
      } else if !q && c == ',' {
        row := row + [cur];
        cur := "";
        i := i + 1;
      } else if !q && (c == '\n' || c == '\r') {
        row := row + [cur];
        rows := rows + [row];
        row := [];
        cur := "";
        i := i + 1;
      } else {
        cur := cur + [c];
        i := i + 1;
      }
    }
    if cur != "" || row != [] {
      row := row + [cur];
      rows := rows + [row];
    }
  }
}

=== FILE: text.dfy ===
/** Sequence and string helpers shared by the parser and the search filter:
    counting, splitting and joining on a delimiter, substring search
    (String.prototype.includes), ASCII lower-casing and subsequences. */
module Text {

  /** Number of occurrences of `d` in `xs`. */
  function Count<T(==)>(xs: seq<T>, d: T): nat
    decreases |xs|
  {
    if xs == [] then 0 else (if xs[0] == d then 1 else 0) + Count(xs[1..], d)
  }

  /** Array.prototype.join: the parts laid end to end, one `d` between neighbours. */
  function Join<T>(parts: seq<seq<T>>, d: T): seq<T>
    decreases |parts|
  {
    if parts == [] then []
    else if |parts| == 1 then parts[0]
    else parts[0] + [d] + Join(parts[1..], d)
  }

  /** `xs` cut at every occurrence of `d`; the delimiters are dropped.
      There is always one more part than delimiters and no part holds a
      delimiter; JoinSplit shows that joining the parts back gives `xs`. */
  function Split<T(==)>(xs: seq<T>, d: T): (parts: seq<seq<T>>)
    ensures |parts| == Count(xs, d) + 1
    ensures forall i :: 0 <= i < |parts| ==> d !in parts[i]
    decreases |xs|
  {
    if xs == [] then [[]]
    else
      var rest := Split(xs[1..], d);
      if xs[0] == d then
        [[]] + rest
      else
        var parts := [[xs[0]] + rest[0]] + rest[1..];
        assert parts[1..] == rest[1..];
        parts
  }

  /** Joining the parts of a split, with the same delimiter, gives back the sequence. */
  lemma {:induction false} JoinSplit<T>(xs: seq<T>, d: T)
    ensures Join(Split(xs, d), d) == xs
    decreases |xs|
  {
    if xs != [] {
      var ys := xs[1..];
      var rest := Split(ys, d);
      JoinSplit(ys, d);
      assert xs == [xs[0]] + ys;
      if xs[0] == d {
        SplitConsDelimiter(d, ys);
        assert Join([[]] + rest, d) == [d] + Join(rest, d);
      } else {
        SplitConsOther(xs[0], ys, d);
        var parts := [[xs[0]] + rest[0]] + rest[1..];
        assert parts[1..] == rest[1..];
        assert |rest| > 1 ==> Join(rest, d) == rest[0] + [d] + Join(rest[1..], d);
      }
    }
  }

  /** Joining one more part at the end adds a delimiter and the part. */
  lemma {:induction false} JoinSnoc<T>(parts: seq<seq<T>>, p: seq<T>, d: T)
    ensures Join(parts + [p], d) == if parts == [] then p else Join(parts, d) + [d] + p
    decreases |parts|
  {
    if |parts| > 1 {
      assert (parts + [p])[1..] == parts[1..] + [p];
      JoinSnoc(parts[1..], p, d);
    } else if |parts| == 1 {
      assert (parts + [p])[1..] == [p];
    }
  }

  /** A value other than the delimiter occurs in a join only if it occurs in a part. */
  lemma {:induction false} JoinAvoids<T>(parts: seq<seq<T>>, d: T, e: T)
    requires e != d
    requires forall i :: 0 <= i < |parts| ==> e !in parts[i]
    ensures e !in Join(parts, d)
    decreases |parts|
  {
    if |parts| > 1 {
      JoinAvoids(parts[1..], d, e);
    }
  }

  /** A sequence without the delimiter is a single part. */
  lemma {:induction false} SplitNone<T>(xs: seq<T>, d: T)
    requires d !in xs
    ensures Split(xs, d) == [xs]
    decreases |xs|
  {
    if xs != [] {
      SplitNone(xs[1..], d);
      assert xs == [xs[0]] + xs[1..];
    }
  }

  /** A leading delimiter opens with an empty part. */
  lemma SplitConsDelimiter<T>(d: T, ys: seq<T>)
    ensures Split([d] + ys, d) == [[]] + Split(ys, d)
  {
    assert ([d] + ys)[1..] == ys;
  }

  /** A leading non-delimiter joins the first part. */
  lemma SplitConsOther<T>(x: T, ys: seq<T>, d: T)
    requires x != d
    ensures var tail := Split(ys, d);
            Split([x] + ys, d) == [[x] + tail[0]] + tail[1..]
  {
    assert ([x] + ys)[1..] == ys;
  }

  /** A delimiter-free prefix followed by a delimiter is the first part. */
  lemma {:induction false} SplitPrefix<T>(p: seq<T>, d: T, rest: seq<T>)
    requires d !in p
    ensures Split(p + [d] + rest, d) == [p] + Split(rest, d)
    decreases |p|
  {
    if p == [] {
      assert p + [d] + rest == [d] + rest;
      SplitConsDelimiter(d, rest);
    } else {
      var ys := p[1..] + [d] + rest;
      SplitPrefix(p[1..], d, rest);
      HeadThenRest(p, d, rest);
      SplitConsOther(p[0], ys, d);
      FirstPartGrows(p[0], p[1..], Split(ys, d), Split(rest, d));
      assert [p[0]] + p[1..] == p;
    }
  }

  /** A non-empty prefix is its head followed by its rest. */
  lemma HeadThenRest<T>(p: seq<T>, d: T, rest: seq<T>)
    requires p != []
    ensures p + [d] + rest == [p[0]] + (p[1..] + [d] + rest)
  {
    assert p == [p[0]] + p[1..];
  }

  /** Putting `x` in front of the first part of `[a] + more`. */
  lemma FirstPartGrows<T>(x: T, a: seq<T>, parts: seq<seq<T>>, more: seq<seq<T>>)
    requires parts == [a] + more
    ensures [[x] + parts[0]] + parts[1..] == [[x] + a] + more
  {
    assert parts[1..] == more;
  }

  /** Split undoes Join whenever no part holds the delimiter. */
  lemma {:induction false} SplitJoin<T>(parts: seq<seq<T>>, d: T)
    requires parts != []
    requires forall i :: 0 <= i < |parts| ==> d !in parts[i]
    ensures Split(Join(parts, d), d) == parts
    decreases |parts|
  {
    if |parts| == 1 {
      SplitNone(parts[0], d);
    } else {
      SplitJoin(parts[1..], d);
      SplitPrefix(parts[0], d, Join(parts[1..], d));
      assert [parts[0]] + parts[1..] == parts;
    }
  }

  /** The last part is empty exactly when the sequence is empty or ends in the delimiter. */
  lemma {:induction false} SplitLastEmpty<T>(xs: seq<T>, d: T)
    ensures var parts := Split(xs, d);
            parts[|parts| - 1] == [] <==> xs == [] || xs[|xs| - 1] == d
    decreases |xs|
  {
    if xs != [] {
      var ys := xs[1..];
      SplitLastEmpty(ys, d);
      assert xs == [xs[0]] + ys;
      var tail := Split(ys, d);
      if xs[0] == d {
        SplitConsDelimiter(d, ys);
      } else {
        SplitConsOther(xs[0], ys, d);
        assert |tail| == 1 ==> [xs[0]] + tail[0] != [];
      }
      if ys != [] {
        assert ys[|ys| - 1] == xs[|xs| - 1];
      }
    }
  }

  /** Occurrences of `e` over all the parts together. */
  function CountAll<T(==)>(parts: seq<seq<T>>, e: T): nat
    decreases |parts|
  {
    if parts == [] then 0 else Count(parts[0], e) + CountAll(parts[1..], e)
  }

  /** Counting distributes over concatenation. */
  lemma {:induction false} CountConcat<T>(a: seq<T>, b: seq<T>, e: T)
    ensures Count(a + b, e) == Count(a, e) + Count(b, e)
    decreases |a|
  {
    if a == [] {
      assert a + b == b;
    } else {
      CountConcat(a[1..], b, e);
      assert (a + b)[1..] == a[1..] + b;
    }
  }

  /** Counting over parts distributes over concatenation of the part lists. */
  lemma {:induction false} CountAllConcat<T>(a: seq<seq<T>>, b: seq<seq<T>>, e: T)
    ensures CountAll(a + b, e) == CountAll(a, e) + CountAll(b, e)
    decreases |a|
  {
    if a == [] {
      assert a + b == b;
    } else {
      CountAllConcat(a[1..], b, e);
      assert (a + b)[1..] == a[1..] + b;
    }
  }

  /** Splitting loses only delimiters: every other value is counted as often
      over the parts as in the whole sequence. */
  lemma {:induction false} SplitKeepsCount<T>(xs: seq<T>, d: T, e: T)
    requires e != d
    ensures CountAll(Split(xs, d), e) == Count(xs, e)
    decreases |xs|
  {
    if xs != [] {
      var ys := xs[1..];
      var tail := Split(ys, d);
      SplitKeepsCount(ys, d, e);
      assert xs == [xs[0]] + ys;
      assert CountAll(tail, e) == Count(tail[0], e) + CountAll(tail[1..], e);
      if xs[0] == d {
        SplitConsDelimiter(d, ys);
        assert ([[]] + tail)[1..] == tail;
      } else {
        SplitConsOther(xs[0], ys, d);
        var parts := [[xs[0]] + tail[0]] + tail[1..];
        assert parts[1..] == tail[1..];
        CountConcat([xs[0]], tail[0], e);
      }
    }
  }

  /** `needle` occurs in `s` starting at index `i`. */
  predicate OccursAt<T(==)>(s: seq<T>, needle: seq<T>, i: int)
  {
    0 <= i && i + |needle| <= |s| && s[i..i + |needle|] == needle
  }

  /** String.prototype.includes, as a left-to-right scan: true exactly when
      `needle` occurs somewhere in `s`. */
  function Includes<T(==)>(s: seq<T>, needle: seq<T>): (b: bool)
    ensures b <==> exists i :: OccursAt(s, needle, i)
    decreases |s|
  {
    if |s| < |needle| then false
    else if s[..|needle|] == needle then
      assert OccursAt(s, needle, 0);
      true
    else
      ShiftOccurs(s, needle);
      Includes(s[1..], needle)
  }

  /** Occurrences in `s[1..]` are the occurrences in `s` past index 0. */
  lemma ShiftOccurs<T>(s: seq<T>, needle: seq<T>)
    requires s != []
    requires !OccursAt(s, needle, 0)
    ensures (exists i :: OccursAt(s, needle, i)) <==> (exists j :: OccursAt(s[1..], needle, j))
  {
    forall i | OccursAt(s, needle, i)
      ensures OccursAt(s[1..], needle, i - 1)
    {
      assert s[1..][i - 1..i - 1 + |needle|] == s[i..i + |needle|];
    }
    forall j | OccursAt(s[1..], needle, j)
      ensures OccursAt(s, needle, j + 1)
    {
      assert s[1..][j..j + |needle|] == s[j + 1..j + 1 + |needle|];
    }
  }

  /** Substring containment is transitive. */
  lemma IncludesTransitive<T>(a: seq<T>, b: seq<T>, c: seq<T>)
    requires Includes(a, b) && Includes(b, c)
    ensures Includes(a, c)
  {
    var i :| OccursAt(a, b, i);
    var j :| OccursAt(b, c, j);
    forall k | 0 <= k < |c|
      ensures a[i + j + k] == c[k]
    {
      assert c[k] == b[j..j + |c|][k] == b[j + k];
      assert b[j + k] == a[i..i + |b|][j + k] == a[i + j + k];
    }
    assert a[i + j..i + j + |c|] == c;
    assert OccursAt(a, c, i + j);
  }

  /** Whatever occurs in `x` occurs in any sequence that has `x` inside it. */
  lemma IncludesInfix<T>(a: seq<T>, x: seq<T>, b: seq<T>, needle: seq<T>)
    requires Includes(x, needle)
    ensures Includes(a + x + b, needle)
  {
    var i :| OccursAt(x, needle, i);
    assert (a + x + b)[|a| + i..|a| + i + |needle|] == x[i..i + |needle|];
    assert OccursAt(a + x + b, needle, |a| + i);
  }

  /** Whatever occurs in one part of a join occurs in the join. */
  lemma {:induction false} JoinIncludesPart<T>(parts: seq<seq<T>>, d: T, k: nat, needle: seq<T>)
    requires k < |parts|
    requires Includes(parts[k], needle)
    ensures Includes(Join(parts, d), needle)
    decreases |parts|
  {
    var e: seq<T> := [];
    if |parts| == 1 {
      IncludesInfix(e, parts[0], e, needle);
      assert e + parts[0] + e == Join(parts, d);
    } else if k == 0 {
      var b := [d] + Join(parts[1..], d);
      IncludesInfix(e, parts[0], b, needle);
      assert e + parts[0] + b == Join(parts, d);
    } else {
      JoinIncludesPart(parts[1..], d, k - 1, needle);
      IncludesInfix(parts[0] + [d], Join(parts[1..], d), e, needle);
      assert parts[0] + [d] + Join(parts[1..], d) + e == Join(parts, d);
    }
  }

  /** toLowerCase restricted to ASCII: 'A'..'Z' become 'a'..'z', all else is kept. */
  function LowerChar(c: char): char
  {
    if 'A' <= c <= 'Z' then (c as int - 'A' as int + 'a' as int) as char else c
  }

  function Lower(s: string): string
  {
    seq(|s|, i requires 0 <= i < |s| => LowerChar(s[i]))
  }

  /** Lower-casing works character by character, so it distributes over concatenation. */
  lemma LowerConcat(a: string, b: string)
    ensures Lower(a + b) == Lower(a) + Lower(b)
  {
  }

  function LowerAll(parts: seq<string>): seq<string>
  {
    seq(|parts|, i requires 0 <= i < |parts| => Lower(parts[i]))
  }

  /** Lower-casing a join lower-cases each part, when the delimiter has no case. */
  lemma {:induction false} LowerJoin(parts: seq<string>, d: char)
    requires LowerChar(d) == d
    ensures Lower(Join(parts, d)) == Join(LowerAll(parts), d)
    decreases |parts|
  {
    if |parts| > 1 {
      LowerJoin(parts[1..], d);
      assert LowerAll(parts)[1..] == LowerAll(parts[1..]);
      LowerConcat(parts[0] + [d], Join(parts[1..], d));
      LowerConcat(parts[0], [d]);
    }
  }

  /** Lower-casing twice is lower-casing once. */
  lemma LowerIdempotent(s: string)
    ensures Lower(Lower(s)) == Lower(s)
  {
  }

  /** `a` keeps the elements it takes from `b` in `b`'s order. */
  predicate IsSubsequence<T(==)>(a: seq<T>, b: seq<T>)
    decreases |b|
  {
    if a == [] then true
    else if b == [] then false
    else (a[0] == b[0] && IsSubsequence(a[1..], b[1..])) || IsSubsequence(a, b[1..])
  }
}
